=== FILE: README.md ===
# cataas-control-panel: request/response core in Dafny

A model of the logic a small browser client for the cataas.com ("Cat as a Service")
API runs around its HTTP requests:

- **URL building** (`constructUrl`): the base `https://cataas.com/cat`, an optional
  resource segment (the `id`, else the comma-joined `tag` list), an optional `/gif`,
  an optional `/says/<text>`, then `?` and the serialized truthy query parameters.
  A URL reader (`Url.ParseUrl`) is the partner. It recovers the resource, the gif
  flag, the caption and the query from every URL the builder makes, provided the
  segments cannot be misread.
- **Response reconciliation**: the callbacks that `getJson`, `getHtml` and `getBlob`
  run on each response. Each takes the data, the request options and the
  `content-type` header. It returns the cat and the error it writes into the
  fetch's error cell. The `CataasJsonResponse` schema is a declarative predicate
  (`Schema.Conforms`) with a decoder and an encoder: parsing inverts encoding on
  well-formed records, and the encoding of a parse agrees with the payload on the
  schema's keys.
- **Tag vocabulary** (`useCataasTags`): the payload read as an array of strings,
  keeping only the tags whose JavaScript `length` (in UTF-16 code units) is two or
  more.
- **Favorites** (`useFavorites`): append and remove-by-id on the stored list, with
  the random UUID and the clock passed in as parameters.

Modules: `Optional`, `Seqs` (order-preserving filter and map), `Strings` (`length`,
`includes`, `join`, `split`), `Decimal` (integer `toString` and its inverse), `Json`, `Query`,
`Url`, `Schema`, `Reconcile`, `Tags`, `Favorites`.

Modelling choices:
- Query parameters are the object's entries in `Object.entries` order, as
  `seq<(string, QVal)>`. `QVal` is a string, an integral number, a boolean or
  `undefined`. Truthiness is written out: `""`, `0`, `false` and `undefined` are
  falsy.
- The form serializer of section 5.2 of the WHATWG URL Standard
  (`URLSearchParams.prototype.toString`) is the function parameter `encode`. It is
  applied to the surviving pairs.
- zod's `datetime()` check is the function parameter `isDatetime`.
- A parsed JSON object is a `map`, because `JSON.parse` leaves one value per key.
- Strings are sequences of code points. JavaScript's `length` counts UTF-16 code
  units, so it is modelled by `Strings.Utf16Length`, which counts a character above
  U+FFFF twice. Substring search gives the same answer on either view for the
  needles the client uses.
- An object never repeats a key, so a query-parameter list that stands for one
  satisfies `Query.DistinctKeys`. The builder does not need it; the lemma that does
  (`Query.FalsyKeyAbsent`) requires it. `Stringify` maps `undefined` to the empty
  string only for totality: the builder drops falsy values before stringifying.
- The JSON check looks for `application/json`, not just `json`. `size` must be
  present, as a number or `null`, because `z.number().nullable()` rejects a
  missing key. The html check is modelled as written (see Findings).
- The callbacks' `error` field is what the callback writes. `None` means the error
  cell keeps its previous value. For that reason a later check's error replaces
  an earlier one.

## Model

| member | source | states |
|---|---|---|
| Query.Truthy | src/composables/useCataasFetch.ts:93 | a value is truthy exactly when it is none of `""`, `0`, `false` and `undefined` |
| Query.Survivors | src/composables/useCataasFetch.ts:91-95 | no more pairs than entries; every serialized value is non-empty; when every value is truthy, every entry is kept |
| Query.Stringify | src/composables/useCataasFetch.ts:94 | a string passes through unchanged; a boolean becomes `"true"` or `"false"`; a number becomes a decimal numeral that reads back as the same integer; a truthy value never gives the empty string |
| Decimal.IntToString | src/composables/useCataasFetch.ts:94 | the numeral is canonical: it starts with `-` exactly for negative numbers, and has no leading zero except for `0` itself |
| Query.SurvivorsExample | src/composables/useCataasFetch.ts:91-95 | `{type: 'square', json: true, html: false}` serializes to the pairs `type=square` and `json=true` |
| Decimal.IntToStringInjective | src/composables/useCataasFetch.ts:94 | distinct numbers stringify to distinct query values |
| Decimal.IntToStringRoundTrip | src/composables/useCataasFetch.ts:94 | the decimal form of every integer reads back as that integer |
| Query.Lookup | src/composables/useCataasFetch.ts:168 | a key has a value exactly when some entry carries that key, and the value found is one of the key's entries |
| Query.SurvivorsSound | src/composables/useCataasFetch.ts:91-95 | every serialized pair comes from a truthy entry, with the entry's key and its stringified value |
| Query.SurvivorsComplete | src/composables/useCataasFetch.ts:91-95 | every truthy entry is serialized |
| Query.SurvivorsInOrder | src/composables/useCataasFetch.ts:91-95 | the serialized pairs are a subsequence of the stringified entries, so the original order is kept |
| Query.SurvivorsAppend | src/composables/useCataasFetch.ts:91-95 | the pairs of a concatenation are the concatenated pairs |
| Query.FalsyEntryIgnored | src/composables/useCataasFetch.ts:93 | inserting a falsy entry anywhere leaves the serialized pairs unchanged |
| Query.SurvivorsEmptyIff | src/composables/useCataasFetch.ts:93 | no pair survives exactly when every value is falsy |
| Query.FalsyKeyAbsent | src/composables/useCataasFetch.ts:91-97 | in an object, the key of a falsy value never reaches the query string |
| Url.PathUrlRenders | src/composables/useCataasFetch.ts:99-113 | before the query, the URL is the base followed by the `/`-joined segment list: resource, then `gif`, then `says` and the text |
| Url.ConstructUrl | src/composables/useCataasFetch.ts:87-120 | the URL is the base `https://cataas.com/cat`, the rendered segment list and the optional `?query`, in that order, so every URL starts with the base |
| Url.AppendQuery | src/composables/useCataasFetch.ts:115-117 | the URL is unchanged exactly when no pair survives; otherwise it is extended by `?` and the encoded pairs |
| Url.DecodeSegments | src/composables/useCataasFetch.ts:101-113 | when the resource is not `gif` or `says`, the segment list decodes to the resource, the gif flag and the caption that were asked for |
| Url.IdGifReadsAsGifFlag | src/composables/useCataasFetch.ts:101-109 | the id `gif` gives the same segments as the gif flag and reads back as the flag, so the keyword condition cannot be dropped |
| Url.ParseConstructedUrl | src/composables/useCataasFetch.ts:87-120 | reading a built URL back recovers the resource (id over tags), the gif flag, the caption and the encoded query, the query being present iff some entry is truthy |
| Url.TagsRecoverable | src/composables/useCataasFetch.ts:103-104 | the tag list is recovered from its segment by splitting at commas when no tag holds a comma |
| Url.IdWins | src/composables/useCataasFetch.ts:101-102 | a truthy id follows the base as `/<id>`, and the URL is the same whatever the tags are |
| Url.TagsSegment | src/composables/useCataasFetch.ts:103-104 | without an id, a non-empty tag list follows the base as `/<tags joined by ','>` |
| Url.NoResourceSegment | src/composables/useCataasFetch.ts:101-105 | without an id, an empty or absent tag list gives the same URL as no id and no tags at all |
| Url.QueryAppendedIff | src/composables/useCataasFetch.ts:115-117 | the URL is the query-free URL plus `?` and the encoded pairs exactly when some entry is truthy, and nothing otherwise |
| Url.FalsyQueryEntryIgnored | src/composables/useCataasFetch.ts:91-97 | a falsy query entry, wherever it stands, does not change the URL |
| Url.TagsGifCaptionShape | src/composables/useCataasFetch.ts:99-117 | tags, gif and caption together give `/<tags>/gif/says/<text>` after the base, then the query |
| Strings.Contains | src/composables/useCataasFetch.ts:166 | `includes` holds only when the needle fits in the string, and holds when the needle is a prefix |
| Strings.ContainsIffOccurs | src/composables/useCataasFetch.ts:166 | `includes` holds exactly when the substring occurs at some index |
| Strings.Join | src/composables/useCataasFetch.ts:104 | joining nothing gives the empty string; the join is as long as the parts plus one separator fewer than there are parts |
| Json.ParseStringArray | src/composables/useCataasFetch.ts:254 | a value decodes exactly when it is an array whose items are all strings, and then to those strings, one per item, in order |
| Json.StringsOf | src/composables/useCataasFetch.ts:126 | an item list decodes exactly when every item is a string, to those strings in order |
| Json.StringArrayRoundTrip | src/composables/useCataasFetch.ts:254 | decoding the JSON array of a string list gives the list back |
| Json.ParseStringArrayExact | src/composables/useCataasFetch.ts:254 | only the array of exactly those strings decodes to a given list |
| Schema.Conforms | src/composables/useCataasFetch.ts:122-130 | a conforming payload is an object carrying the five required keys `_id`, `mimetype`, `size`, `tags` and `createdAt` |
| Schema.ParseCataasJson | src/composables/useCataasFetch.ts:122-130 | a payload parses exactly when it satisfies every field rule of the schema |
| Schema.EncodeRoundTrip | src/composables/useCataasFetch.ts:122-130 | parsing the payload of a well-formed record gives the record back |
| Schema.ParseSound | src/composables/useCataasFetch.ts:122-130 | a parsed record is well formed, and each of its fields was in the payload with exactly that value |
| Reconcile.JsonCheck | src/composables/useCataasFetch.ts:165-179 | the cat is the parse of the payload; a schema failure writes the schema error over any content-type error; a conforming payload gets an error iff `json` is not `true` or the header lacks `application/json` |
| Reconcile.JsonAcceptsIff | src/composables/useCataasFetch.ts:165-179 | a JSON fetch writes no error exactly when `json === true`, the header mentions `application/json` and the payload conforms |
| Reconcile.JsonWithoutContentTypeErrs | src/composables/useCataasFetch.ts:166-170 | a missing `content-type` always produces an error in JSON mode |
| Reconcile.SchemaErrorWins | src/composables/useCataasFetch.ts:172-178 | a non-conforming payload yields the schema error and a null cat, whatever the header |
| Reconcile.MissingIdIsSchemaError | src/composables/useCataasFetch.ts:172-176 | a payload without `_id` yields the schema error |
| Reconcile.HtmlCheck | src/composables/useCataasFetch.ts:185-193 | the data comes back unchanged; an error is written iff `html` is falsy and the header mentions `html` |
| Reconcile.HtmlCheckIntended | src/composables/useCataasFetch.ts:185-193 | corrected check: no error iff `html` is set and the header mentions `html`; the data comes back unchanged |
| Reconcile.HtmlChecksCompared | src/composables/useCataasFetch.ts:186-190 | whatever the check as written rejects, the corrected check rejects too; the two differ exactly on responses whose header does not mention `html`, which only the corrected check rejects |
| Reconcile.HtmlCheckRejectsHtml | src/composables/useCataasFetch.ts:186-190 | as written, a `text/html` response to a request without `html` is rejected |
| Reconcile.HtmlCheckMissesAbsentContentType | src/composables/useCataasFetch.ts:186-190 | as written, `html: true` with no `content-type` passes, where the corrected check objects |
| Reconcile.BlobCheck | src/composables/useCataasFetch.ts:199-211 | the data comes back unchanged; `html` or `json` set writes the unsupported-flags error; otherwise an error is written iff the header lacks `image` or there is no blob |
| Reconcile.FormatFlagsCheckedFirst | src/composables/useCataasFetch.ts:202-208 | with `html` or `json` set, neither the body nor the header changes the image fetch's error |
| Reconcile.ImageFetchRejectsJsonFlag | src/composables/useCataasFetch.ts:202-205 | `json: true` on an image fetch is always the unsupported-flags error |
| Strings.Utf16Length | src/composables/useCataasFetch.ts:255 | a one-character string has `length` 1, or 2 when the character is above U+FFFF; any string's `length` lies between its number of characters and twice that, and equals the number of characters when none is above U+FFFF |
| Strings.Utf16LengthAppend | src/composables/useCataasFetch.ts:255 | `length` adds up over concatenation, which with the one-character case fixes it for every string |
| Tags.KeepTag | src/composables/useCataasFetch.ts:255 | the filter keeps exactly the tags whose UTF-16 length is two or more |
| Tags.AstralTagKept | src/composables/useCataasFetch.ts:255 | a tag made of one emoji above U+FFFF is kept, a one-letter tag is not |
| Tags.TagsOf | src/composables/useCataasFetch.ts:253-256 | every tag kept has a UTF-16 length of at least two and was sent by the server; every such tag sent is kept; a payload that is not an array of strings gives no tags |
| Tags.TagsInOrder | src/composables/useCataasFetch.ts:255 | the kept tags are a subsequence of the tags sent |
| Tags.TagsCount | src/composables/useCataasFetch.ts:255 | a tag of UTF-16 length two or more is kept as often as it was sent, a shorter one never |
| Tags.TagsStable | src/composables/useCataasFetch.ts:253-256 | cleaning the cleaned list changes nothing |
| Favorites.RandomId | src/composables/useFavorites.ts:39-41 | the id is the part of the UUID before its first `-`: a prefix with no `-`, followed by `-` or by the end of the UUID |
| Favorites.RandomIdOfUuid | src/composables/useFavorites.ts:40 | for a canonical UUID the id is its first eight characters |
| Favorites.AddFavorite | src/composables/useFavorites.ts:23-30 | the list grows by one; the old list is an unchanged prefix; the new last entry has the random id, the `cataasId`, the time and the customization |
| Favorites.RemoveFavorite | src/composables/useFavorites.ts:32-34 | no entry with the id is left; every entry left was in the list; every entry with another id is left |
| Favorites.RemoveKeepsOrder | src/composables/useFavorites.ts:33 | the remaining entries are a subsequence of the list |
| Favorites.RemoveCount | src/composables/useFavorites.ts:33 | an entry with another id is kept exactly as often as it occurred; one with the id is gone |
| Favorites.RemoveIdempotent | src/composables/useFavorites.ts:33 | removing an id twice is removing it once |
| Favorites.RemoveAbsent | src/composables/useFavorites.ts:33 | removing an id no entry has leaves the list unchanged |
| Favorites.RemoveCommutes | src/composables/useFavorites.ts:33 | removals of two ids commute |
| Favorites.RemoveUndoesAdd | src/composables/useFavorites.ts:23-34 | removing the entry just added restores the list, when its id was not already in use |

## Left out

- The network and `useFetch`: the model starts from the received data and `content-type` header.
- Vue reactivity: `computed`, `ref`, `watch`, `watchEffect` and the `wrapFetch` plumbing (`src/composables/useCataasFetch.ts:143-160`). The relative order of concurrent fetches is out too.
- `getImage`'s object URL (`src/composables/useCataasFetch.ts:214-228`): this is browser resource management.
- `console.error` of schema failures (`src/composables/useCataasFetch.ts:175`), and the text of the errors. `FetchError` keeps only the kind of error, the header received and the expected mode.
- Percent-encoding by `URLSearchParams`: the serializer is a parameter.
- Query.Stringify: numbers are integers only. NaN, -0, fractions and the exponent form of large numbers are not modelled, because the model has no floating point.
- Schema.ParseCataasJson: the `datetime()` grammar is the parameter `isDatetime`. JSON numbers are integers.
- `crypto.randomUUID` and `new Date()` (`src/composables/useFavorites.ts:27, 40`): they come in as the `uuid` and `now` parameters.
- `useStorage` persistence under `cataas-favorites`, including how a stored `Date` reads back. Only the list operations are modelled.
- Two `addFavorite` calls giving distinct ids: the source does not ensure this, because the id is a random 8-character group. Favorites.RemoveUndoesAdd therefore requires the new id to be unused.
- The TypeScript-only exclusions (`id` vs `tag`/`gif`, `type` vs `width`/`height`, `html` vs `json`): nothing enforces them at run time, so the model accepts every combination.
- Url.DecodeSegments: the segments decode to the request only when the resource is not `gif` or `says`; the builder writes such an id as it is, so `Url.IdGifReadsAsGifFlag` shows it reading back as the gif flag.
- Url.ParseConstructedUrl: the URL reader recovers the request only when the resource and caption contain no `/` or `?`, and when the resource is not `gif` or `says`. The builder escapes nothing, so other inputs are ambiguous.
- The fetch of the tag vocabulary (`Tags.TagsUrl`): only the computed filter is modelled.
- `src/api/cataas-api.ts` (type aliases and a no-op), the router, the store and the component test: they have no logic to model.

## Findings

| source | as written | input that shows it | evidently intended | confidence | as-written member | corrected member |
|---|---|---|---|---|---|---|
| src/composables/useCataasFetch.ts:188 | `getHtml` records an error when `html` was not requested and the response is html | query `{}` with `content-type: text/html` is rejected; query `{html: true}` without a `content-type` is accepted | like `getJson`: error unless `html` was requested and the header mentions `html` | medium; not executed | Reconcile.HtmlCheck, shown by Reconcile.HtmlCheckRejectsHtml and Reconcile.HtmlCheckMissesAbsentContentType | Reconcile.HtmlCheckIntended, compared with the check as written by Reconcile.HtmlChecksCompared |

`Reconcile.HtmlCheck` stays the model of `getHtml`. `Reconcile.HtmlCheckIntended` is the corrected check. Its contract states that it passes exactly the html responses to requests that asked for html.

=== FILE: decimal.dfy ===
/** `Number.prototype.toString()` for the integral values the model allows: decimal
    digits, a leading `-` for negatives, no leading zeros. `ParseInt` is its inverse. */
module Decimal {

  predicate IsDigit(c: char) {
    '0' <= c <= '9'
  }

  function DigitChar(d: nat): (c: char)
    requires d < 10
    ensures IsDigit(c)
  {
    (48 + d) as char
  }

  function DigitValue(c: char): (d: nat)
    requires IsDigit(c)
    ensures d < 10 && DigitChar(d) == c
  {
    (c as int - 48) as nat
  }

  predicate AllDigits(s: string) {
    forall i :: 0 <= i < |s| ==> IsDigit(s[i])
  }

  /** The decimal digits of `n`, most significant first. */
  function NatToString(n: nat): (s: string)
    ensures |s| > 0 && AllDigits(s)
    ensures s[0] == '0' ==> n == 0
    decreases n
  {
    if n < 10 then [DigitChar(n)]
    else NatToString(n / 10) + [DigitChar(n % 10)]
  }

  /** The value of a string of decimal digits. */
  function ParseNat(s: string): nat
    requires AllDigits(s)
    decreases |s|
  {
    if |s| == 0 then 0
    else 10 * ParseNat(s[..|s| - 1]) + DigitValue(s[|s| - 1])
  }

  lemma {:induction false} ParseNatToString(n: nat)
    ensures ParseNat(NatToString(n)) == n
    decreases n
  {
    if n >= 10 {
      var s := NatToString(n);
      assert s[..|s| - 1] == NatToString(n / 10);
      ParseNatToString(n / 10);
    }
  }

  /** `String(i)` for an integer `i`. */
  function IntToString(i: int): (s: string)
    ensures |s| > 0
    ensures i != 0 ==> s != "0"
    ensures s[0] == '-' <==> i < 0
    ensures i < 0 ==> |s| > 1 && s[1] != '0'
    ensures s[0] == '0' ==> s == "0"
  {
    if i < 0 then "-" + NatToString(-i) else NatToString(i)
  }

  predicate IsIntString(s: string) {
    if |s| > 0 && s[0] == '-' then AllDigits(s[1..]) else AllDigits(s)
  }

  function ParseInt(s: string): int
    requires IsIntString(s)
  {
    if |s| > 0 && s[0] == '-' then -(ParseNat(s[1..]) as int) else ParseNat(s)
  }

  /** Stringifying loses nothing: the integer is read back from its decimal form. */
  lemma IntToStringRoundTrip(i: int)
    ensures IsIntString(IntToString(i))
    ensures ParseInt(IntToString(i)) == i
  {
    if i < 0 {
      var digits := NatToString(-i);
      ParseNatToString(-i);
      var s := IntToString(i);
      assert s == "-" + digits;
      assert s[0] == '-' && s[1..] == digits;
    } else {
      ParseNatToString(i);
    }
  }

  /** Distinct integers have distinct decimal forms. */
  lemma IntToStringInjective(i: int, j: int)
    requires IntToString(i) == IntToString(j)
    ensures i == j
  {
    IntToStringRoundTrip(i);
    IntToStringRoundTrip(j);
  }
}

=== FILE: favorites.dfy ===
/** `useFavorites`: the user's favorite cats, a list kept in browser storage. The
    storage itself, the clock and the random source are outside the model: the
    current time and the UUID come in as parameters. */
module Favorites {
  import opened Optional
  import opened Query
  import Strings
  import Seqs

  /** The storage key of the list. */
  const StorageKey: string := "cataas-favorites"

  /** `Customization`: the caption and query parameters a cat was saved with. */
  datatype Customization = Customization(text: Option<string>, queryParams: Option<QueryParams>)

  /** `FavoriteCat`. `id` is local to this list; `cataasId` names the image at the API.
      `savedAt` is the save time, as a timestamp. */
  datatype FavoriteCat = FavoriteCat(
    id: string,
    cataasId: string,
    savedAt: int,
    customization: Option<Customization>)

  /** `randomID()`: the first `-`-separated group of the UUID `crypto.randomUUID()` returned. */
  function RandomId(uuid: string): (id: string)
    ensures '-' !in id
    ensures Strings.IsPrefix(id, uuid)
    ensures |id| == |uuid| || uuid[|id|] == '-'
  {
    Strings.Split(uuid, '-')[0]
  }

  /** For a UUID in its canonical form, the id is its first eight characters. */
  lemma RandomIdOfUuid(uuid: string)
    requires |uuid| > 8 && uuid[8] == '-' && '-' !in uuid[..8]
    ensures RandomId(uuid) == uuid[..8]
  {
    assert uuid == uuid[..8] + uuid[8..];
    Strings.TakeUntilUnique(uuid[..8], uuid[8..], '-');
  }

  predicate HasEntry(favorites: seq<FavoriteCat>, id: string) {
    exists i :: 0 <= i < |favorites| && favorites[i].id == id
  }

  /** `addFavorite(cataasId, customization)`: appends a new entry. */
  function AddFavorite(favorites: seq<FavoriteCat>, cataasId: string, customization: Customization, uuid: string, now: int)
    : (r: seq<FavoriteCat>)
    ensures |r| == |favorites| + 1
    ensures r[..|favorites|] == favorites
    ensures r[|favorites|].id == RandomId(uuid)
    ensures r[|favorites|].cataasId == cataasId
    ensures r[|favorites|].savedAt == now
    ensures r[|favorites|].customization == Some(customization)
  {
    favorites + [FavoriteCat(RandomId(uuid), cataasId, now, Some(customization))]
  }

  function Other(id: string): FavoriteCat -> bool {
    (cat: FavoriteCat) => cat.id != id
  }

  /** `removeFavorite(id)`: keeps the entries with another id. */
  function RemoveFavorite(favorites: seq<FavoriteCat>, id: string): (r: seq<FavoriteCat>)
    ensures !HasEntry(r, id)
    ensures forall i :: 0 <= i < |r| ==> r[i] in favorites
    ensures forall i :: 0 <= i < |favorites| && favorites[i].id != id ==> favorites[i] in r
  {
    Seqs.Filter(favorites, Other(id))
  }

  /** The kept entries are unchanged and in their original relative order. */
  lemma RemoveKeepsOrder(favorites: seq<FavoriteCat>, id: string)
    ensures Seqs.IsSubsequence(RemoveFavorite(favorites, id), favorites)
  {
    Seqs.FilterIsSubsequence(favorites, Other(id));
  }

  /** Every entry with another id stays exactly as often as it was; those with `id` are gone. */
  lemma RemoveCount(favorites: seq<FavoriteCat>, id: string, cat: FavoriteCat)
    ensures multiset(RemoveFavorite(favorites, id))[cat]
         == if cat.id != id then multiset(favorites)[cat] else 0
  {
    Seqs.FilterCount(favorites, Other(id), cat);
  }

  /** Removing twice is removing once. */
  lemma RemoveIdempotent(favorites: seq<FavoriteCat>, id: string)
    ensures RemoveFavorite(RemoveFavorite(favorites, id), id) == RemoveFavorite(favorites, id)
  {
    Seqs.FilterIdempotent(favorites, Other(id));
  }

  /** Removing an id that no entry has changes nothing. */
  lemma RemoveAbsent(favorites: seq<FavoriteCat>, id: string)
    requires !HasEntry(favorites, id)
    ensures RemoveFavorite(favorites, id) == favorites
  {
    Seqs.FilterKeepsAll(favorites, Other(id));
  }

  /** Removals of two ids commute. */
  lemma RemoveCommutes(favorites: seq<FavoriteCat>, a: string, b: string)
    ensures RemoveFavorite(RemoveFavorite(favorites, a), b) == RemoveFavorite(RemoveFavorite(favorites, b), a)
  {
    Seqs.FilterCommutes(favorites, Other(a), Other(b));
  }

  /** Undo: removing the entry just added restores the list, provided its random id
      was not already in use (the random source does not promise that). */
  lemma RemoveUndoesAdd(favorites: seq<FavoriteCat>, cataasId: string, customization: Customization, uuid: string, now: int)
    requires !HasEntry(favorites, RandomId(uuid))
    ensures RemoveFavorite(AddFavorite(favorites, cataasId, customization, uuid, now), RandomId(uuid)) == favorites
  {
    var added := [FavoriteCat(RandomId(uuid), cataasId, now, Some(customization))];
    Seqs.FilterAppend(favorites, added, Other(RandomId(uuid)));
    RemoveAbsent(favorites, RandomId(uuid));
  }
}

=== FILE: json.dfy ===
/** Parsed JSON values, as the fetch layer hands them to the response checks,
    and the `z.array(z.string())` decoder used for the tag vocabulary. */
module Json {
  import opened Optional
  import Seqs

  /** A value produced by `JSON.parse`. Objects map each key to one value, as a
      parsed object does. Numbers are integral (see README). */
  datatype JsonValue =
    | JNull
    | JBool(b: bool)
    | JNumber(n: int)
    | JString(s: string)
    | JArray(items: seq<JsonValue>)
    | JObject(fields: map<string, JsonValue>)

  function Str(s: string): JsonValue {
    JString(s)
  }

  /** The strings held by `items`, or `None` as soon as one item is not a string. */
  function StringsOf(items: seq<JsonValue>): (r: Option<seq<string>>)
    ensures r.Some? <==> forall i :: 0 <= i < |items| ==> items[i].JString?
    ensures r.Some? ==> |r.value| == |items|
    ensures r.Some? ==> forall i :: 0 <= i < |items| ==> r.value[i] == items[i].s
    decreases |items|
  {
    if |items| == 0 then Some([])
    else if !items[0].JString? then None
    else
      match StringsOf(items[1..])
      case None => None
      case Some(rest) => Some([items[0].s] + rest)
  }

  /** `z.array(z.string()).safeParse(v).data`: the strings of an array of strings. */
  function ParseStringArray(v: JsonValue): (r: Option<seq<string>>)
    ensures r.Some? <==> v.JArray? && forall i :: 0 <= i < |v.items| ==> v.items[i].JString?
    ensures r.Some? ==> |r.value| == |v.items|
    ensures r.Some? ==> forall i :: 0 <= i < |r.value| ==> v.items[i] == JString(r.value[i])
  {
    if v.JArray? then StringsOf(v.items) else None
  }

  /** The JSON array of the given strings. */
  function StringArray(ss: seq<string>): JsonValue {
    JArray(Seqs.Map(ss, Str))
  }

  /** Decoding an encoded string list gives the list back ... */
  lemma StringArrayRoundTrip(ss: seq<string>)
    ensures ParseStringArray(StringArray(ss)) == Some(ss)
  {
    var r := StringsOf(Seqs.Map(ss, Str));
    assert r.Some?;
    assert r.value == ss;
  }

  /** ... and only an array of exactly those strings decodes to them. */
  lemma ParseStringArrayExact(v: JsonValue, ss: seq<string>)
    requires ParseStringArray(v) == Some(ss)
    ensures v == StringArray(ss)
  {
    assert v.items == Seqs.Map(ss, Str);
  }
}

=== FILE: optional.dfy ===
/** A value that may be missing. `None` stands for a field or argument the client
    leaves `undefined` (or a response sets to `null`); the decoders of the cat
    schema also use `None` to report a payload that does not fit, and chain with
    `:-`, which stops at the first `None`. */
module Optional {

  datatype Option<+T> = None | Some(value: T) {

    /** `:-` gives up on `None`. */
    predicate IsFailure() {
      None?
    }

    function PropagateFailure<U>(): Option<U>
      requires None?
    {
      None
    }

    function Extract(): T
      requires Some?
    {
      value
    }

    /** The stored value if there is one, else `default`: how the client fills in an
        omitted options object or tag payload. */
    function GetOr(default: T): T {
      match this
      case Some(v) => v
      case None => default
    }
  }
}

=== FILE: query.dfy ===
/** Query parameters of a cat request (`CatQueryParams`) and the first step of
    `constructUrl`: keeping the truthy entries and turning their values into strings. */
module Query {
  import opened Optional
  import Seqs
  import Decimal

  /** A query-parameter value: a string, an (integral) number, a boolean,
      or a key present with value `undefined`. */
  datatype QVal = QStr(s: string) | QInt(n: int) | QBool(b: bool) | QUndefined

  /** The entries of the query-parameter object, in `Object.entries` order. An
      object never repeats a key, so the sequences that stand for one satisfy
      `DistinctKeys`; the operations do not need it, and the lemmas that do say so. */
  type QueryParams = seq<(string, QVal)>

  /** JavaScript truthiness, `!!value`: `""`, `0`, `false` and `undefined` are falsy. */
  predicate Truthy(v: QVal)
    ensures Truthy(v) <==> v !in {QStr(""), QInt(0), QBool(false), QUndefined}
  {
    match v
    case QStr(s) => s != ""
    case QInt(n) => n != 0
    case QBool(b) => b
    case QUndefined => false
  }

  /** `b.toString()`. */
  function BoolString(b: bool): string {
    if b then "true" else "false"
  }

  /** `value?.toString()`. The `QUndefined` case is unreachable from the URL
      builder, whose filter drops every falsy value first; it maps to the empty
      string only to keep the function total. */
  function Stringify(v: QVal): (s: string)
    ensures Truthy(v) ==> s != ""
    ensures v.QStr? ==> s == v.s
    ensures v.QBool? ==> s == BoolString(v.b)
    ensures v.QInt? ==> Decimal.IsIntString(s) && Decimal.ParseInt(s) == v.n
  {
    match v
    case QStr(s) => s
    case QInt(n) =>
      Decimal.IntToStringRoundTrip(n);
      Decimal.IntToString(n)
    case QBool(b) => BoolString(b)
    case QUndefined => ""
  }

  predicate TruthyEntry(e: (string, QVal)) {
    Truthy(e.1)
  }

  function StringifyEntry(e: (string, QVal)): (string, string) {
    (e.0, Stringify(e.1))
  }

  /** An object's keys are pairwise distinct. */
  predicate DistinctKeys(q: QueryParams) {
    forall i, j :: 0 <= i < j < |q| ==> q[i].0 != q[j].0
  }

  /** `queryParams?.[key]`: the value stored under `key`, if any. */
  function Lookup(q: QueryParams, key: string): (r: Option<QVal>)
    ensures r.Some? <==> exists i :: 0 <= i < |q| && q[i].0 == key
    ensures r.Some? ==> (key, r.value) in q
    decreases |q|
  {
    if |q| == 0 then None
    else if q[0].0 == key then Some(q[0].1)
    else
      var r := Lookup(q[1..], key);
      assert forall i :: 1 <= i < |q| ==> q[i] == q[1..][i - 1];
      r
  }

  /** The `[key, string]` pairs handed to `URLSearchParams`: the truthy entries,
      stringified, in their original order. */
  function Survivors(q: QueryParams): (r: seq<(string, string)>)
    ensures |r| <= |q|
    ensures forall i :: 0 <= i < |r| ==> r[i].1 != ""
    ensures (forall i :: 0 <= i < |q| ==> Truthy(q[i].1)) ==> |r| == |q|
  {
    var kept := Seqs.Filter(q, TruthyEntry);
    assert (forall i :: 0 <= i < |q| ==> TruthyEntry(q[i])) ==> kept == q by {
      if forall i :: 0 <= i < |q| ==> TruthyEntry(q[i]) {
        Seqs.FilterKeepsAll(q, TruthyEntry);
      }
    }
    Seqs.Map(kept, StringifyEntry)
  }

  /** Every surviving pair comes from a truthy entry of the input, with its value stringified. */
  lemma SurvivorsSound(q: QueryParams, j: int)
    requires 0 <= j < |Survivors(q)|
    ensures exists i :: 0 <= i < |q| && Truthy(q[i].1) && Survivors(q)[j] == StringifyEntry(q[i])
  {
    var kept := Seqs.Filter(q, TruthyEntry);
    assert kept[j] in q;
    var i :| 0 <= i < |q| && q[i] == kept[j];
    assert Truthy(q[i].1);
  }

  /** Every truthy entry of the input survives, stringified. */
  lemma SurvivorsComplete(q: QueryParams, i: int)
    requires 0 <= i < |q| && Truthy(q[i].1)
    ensures StringifyEntry(q[i]) in Survivors(q)
  {
    var kept := Seqs.Filter(q, TruthyEntry);
    assert TruthyEntry(q[i]);
    assert q[i] in kept;
    var j :| 0 <= j < |kept| && kept[j] == q[i];
    assert Survivors(q)[j] == StringifyEntry(q[i]);
  }

  /** Survivors keep the input's order: they form a subsequence of the stringified input. */
  lemma SurvivorsInOrder(q: QueryParams)
    ensures Seqs.IsSubsequence(Survivors(q), Seqs.Map(q, StringifyEntry))
  {
    Seqs.FilterIsSubsequence(q, TruthyEntry);
    Seqs.MapSubsequence(Seqs.Filter(q, TruthyEntry), q, StringifyEntry);
  }

  /** Survivors of a concatenation are the concatenated survivors. */
  lemma SurvivorsAppend(a: QueryParams, b: QueryParams)
    ensures Survivors(a + b) == Survivors(a) + Survivors(b)
  {
    Seqs.FilterAppend(a, b, TruthyEntry);
    Seqs.MapAppend(Seqs.Filter(a, TruthyEntry), Seqs.Filter(b, TruthyEntry), StringifyEntry);
  }

  /** A falsy entry, wherever it stands, changes nothing. */
  lemma FalsyEntryIgnored(a: QueryParams, key: string, v: QVal, b: QueryParams)
    requires !Truthy(v)
    ensures Survivors(a + [(key, v)] + b) == Survivors(a + b)
  {
    var x := [(key, v)];
    SurvivorsAppend(a + x, b);
    SurvivorsAppend(a, x);
    SurvivorsAppend(a, b);
    assert Seqs.Filter(x, TruthyEntry) == [];
    assert Survivors(x) == [];
    assert Survivors(a + x) == Survivors(a) + [] == Survivors(a);
  }

  /** The options of a square JSON request: a string value passes through as it is,
      `true` becomes `"true"`, and a falsy value is dropped. */
  lemma SurvivorsExample()
    ensures Survivors([("type", QStr("square")), ("json", QBool(true)), ("html", QBool(false))])
         == [("type", "square"), ("json", "true")]
  {
    var q := [("type", QStr("square")), ("json", QBool(true)), ("html", QBool(false))];
    SurvivorsAppend(q[..2], q[2..]);
    SurvivorsAppend(q[..1], q[1..2]);
    assert q[..2] == q[..1] + q[1..2] && q == q[..2] + q[2..];
    assert Survivors(q[2..]) == [];
  }

  /** No pair survives exactly when every value is falsy. */
  lemma SurvivorsEmptyIff(q: QueryParams)
    ensures |Survivors(q)| == 0 <==> forall i :: 0 <= i < |q| ==> !Truthy(q[i].1)
  {
    if exists i :: 0 <= i < |q| && Truthy(q[i].1) {
      var i :| 0 <= i < |q| && Truthy(q[i].1);
      SurvivorsComplete(q, i);
    }
    if |Survivors(q)| != 0 {
      SurvivorsSound(q, 0);
    }
  }

  /** In an object, the key of a falsy value never appears among the survivors. */
  lemma FalsyKeyAbsent(q: QueryParams, i: int)
    requires DistinctKeys(q)
    requires 0 <= i < |q| && !Truthy(q[i].1)
    ensures forall j :: 0 <= j < |Survivors(q)| ==> Survivors(q)[j].0 != q[i].0
  {
    forall j | 0 <= j < |Survivors(q)|
      ensures Survivors(q)[j].0 != q[i].0
    {
      SurvivorsSound(q, j);
    }
  }
}

=== FILE: reconcile.dfy ===
/** The checks `getJson`, `getHtml` and `getBlob` run on each received response:
    given the data, the request options and the `content-type` header, what the
    callback stores as the fetch's error and what it returns as the cat.

    `error` is the value the callback writes into the fetch's error cell; `None`
    means it writes nothing and the cell keeps whatever it held before. */
module Reconcile {
  import opened Optional
  import opened Strings
  import opened Json
  import opened Query
  import opened Url
  import opened Schema

  datatype Mode = JsonMode | HtmlMode | ImageMode

  /** The errors the callbacks write: a content type that does not fit the mode
      (with the header as received), a payload that fails the schema, and
      `html`/`json` flags on an image fetch. */
  datatype FetchError =
    | InvalidContentType(contentType: Option<string>, expected: Mode)
    | SchemaViolation
    | FormatFlagsUnsupported

  datatype Checked<T> = Checked(error: Option<FetchError>, cat: T)

  /** A binary body (`Blob`). */
  datatype Blob = Blob(bytes: seq<bv8>)

  /** `opts.queryParams?.[key]`. */
  function QueryValue(opts: FetchOptions, key: string): Option<QVal> {
    match opts.queryParams
    case None => None
    case Some(q) => Lookup(q, key)
  }

  /** `opts.queryParams?.[key]` is truthy. */
  predicate FlagSet(opts: FetchOptions, key: string) {
    QueryValue(opts, key).Some? && Truthy(QueryValue(opts, key).value)
  }

  /** `opts.queryParams?.json === true`: strictly the boolean `true`. */
  predicate JsonIsTrue(opts: FetchOptions) {
    QueryValue(opts, "json") == Some(QBool(true))
  }

  /** `contentType?.includes(kind)`: the header is present and mentions `kind`. */
  predicate ContentMentions(contentType: Option<string>, kind: string) {
    contentType.Some? && Contains(contentType.value, kind)
  }

  /** The `getJson` callback. */
  function JsonCheck(data: JsonValue, opts: FetchOptions, contentType: Option<string>, isDatetime: DatetimeCheck)
    : (r: Checked<Option<CataasJsonResponse>>)
    ensures r.cat == ParseCataasJson(data, isDatetime)
    ensures r.cat.Some? <==> Conforms(data, isDatetime)
    ensures !Conforms(data, isDatetime) ==> r.error == Some(SchemaViolation)
    ensures Conforms(data, isDatetime) ==>
              (r.error.None? <==> JsonIsTrue(opts) && ContentMentions(contentType, "application/json"))
    ensures Conforms(data, isDatetime) && r.error.Some? ==> r.error == Some(InvalidContentType(contentType, JsonMode))
  {
    var error :=
      if !(JsonIsTrue(opts) && ContentMentions(contentType, "application/json"))
      then Some(InvalidContentType(contentType, JsonMode))
      else None;
    var result := ParseCataasJson(data, isDatetime);
    var error := if result.None? then Some(SchemaViolation) else error;
    Checked(error, result)
  }

  /** The `getHtml` callback, as written: it objects when `html` was NOT requested and
      the response IS html (see Findings in the README). */
  function HtmlCheck(data: Option<string>, opts: FetchOptions, contentType: Option<string>): (r: Checked<Option<string>>)
    ensures r.cat == data
    ensures r.error.Some? <==> !FlagSet(opts, "html") && ContentMentions(contentType, "html")
    ensures r.error.Some? ==> r.error == Some(InvalidContentType(contentType, HtmlMode))
  {
    var error :=
      if !FlagSet(opts, "html") && ContentMentions(contentType, "html")
      then Some(InvalidContentType(contentType, HtmlMode))
      else None;
    Checked(error, data)
  }

  /** The `getHtml` check as the JSON check suggests it was meant: accept only html
      that was asked for. */
  function HtmlCheckIntended(data: Option<string>, opts: FetchOptions, contentType: Option<string>): (r: Checked<Option<string>>)
    ensures r.cat == data
    ensures r.error.None? <==> FlagSet(opts, "html") && ContentMentions(contentType, "html")
    ensures r.error.Some? ==> r.error == Some(InvalidContentType(contentType, HtmlMode))
  {
    var error :=
      if !(FlagSet(opts, "html") && ContentMentions(contentType, "html"))
      then Some(InvalidContentType(contentType, HtmlMode))
      else None;
    Checked(error, data)
  }

  /** The `getBlob` callback: format flags first, then the content type and the body. */
  function BlobCheck(data: Option<Blob>, opts: FetchOptions, contentType: Option<string>): (r: Checked<Option<Blob>>)
    ensures r.cat == data
    ensures FlagSet(opts, "html") || FlagSet(opts, "json") ==> r.error == Some(FormatFlagsUnsupported)
    ensures !(FlagSet(opts, "html") || FlagSet(opts, "json")) ==>
              (r.error.None? <==> ContentMentions(contentType, "image") && data.Some?)
    ensures r.error.Some? && r.error != Some(FormatFlagsUnsupported) ==>
              r.error == Some(InvalidContentType(contentType, ImageMode))
  {
    var error :=
      if FlagSet(opts, "html") || FlagSet(opts, "json") then Some(FormatFlagsUnsupported)
      else if !ContentMentions(contentType, "image") || data.None? then Some(InvalidContentType(contentType, ImageMode))
      else None;
    Checked(error, data)
  }

  // ----- Properties across inputs -----

  /** Without a `content-type` header a JSON fetch always records an error. */
  lemma JsonWithoutContentTypeErrs(data: JsonValue, opts: FetchOptions, isDatetime: DatetimeCheck)
    ensures JsonCheck(data, opts, None, isDatetime).error.Some?
  {
  }

  /** A schema failure is what the cell ends up holding, whatever the content-type
      check wrote before it; the cat is then null. */
  lemma SchemaErrorWins(data: JsonValue, opts: FetchOptions, contentType: Option<string>, isDatetime: DatetimeCheck)
    requires !Conforms(data, isDatetime)
    ensures JsonCheck(data, opts, contentType, isDatetime) == Checked(Some(SchemaViolation), None)
  {
  }

  /** A payload without `_id` is a schema failure, never a silent null. */
  lemma MissingIdIsSchemaError(fields: map<string, JsonValue>, opts: FetchOptions, contentType: Option<string>, isDatetime: DatetimeCheck)
    requires "_id" !in fields
    ensures JsonCheck(JObject(fields), opts, contentType, isDatetime).error == Some(SchemaViolation)
  {
  }

  /** A JSON fetch leaves the error cell alone exactly when the payload is a well-formed
      record sent as `application/json` to a request with `json: true`. */
  lemma JsonAcceptsIff(data: JsonValue, opts: FetchOptions, contentType: Option<string>, isDatetime: DatetimeCheck)
    ensures JsonCheck(data, opts, contentType, isDatetime).error.None?
        <==> JsonIsTrue(opts) && ContentMentions(contentType, "application/json") && Conforms(data, isDatetime)
  {
  }

  /** With `html` or `json` set, an image fetch reports the misuse before looking at the
      response: neither the body nor the header changes what is written. */
  lemma FormatFlagsCheckedFirst(opts: FetchOptions, d1: Option<Blob>, d2: Option<Blob>, c1: Option<string>, c2: Option<string>)
    requires FlagSet(opts, "html") || FlagSet(opts, "json")
    ensures BlobCheck(d1, opts, c1).error == BlobCheck(d2, opts, c2).error
  {
  }

  /** `json: true` on an image fetch is always an error. */
  lemma ImageFetchRejectsJsonFlag(data: Option<Blob>, opts: FetchOptions, contentType: Option<string>)
    requires JsonIsTrue(opts)
    ensures BlobCheck(data, opts, contentType).error == Some(FormatFlagsUnsupported)
  {
  }

  // ----- The html check as written and as intended -----

  function OptionsWithQuery(q: QueryParams): FetchOptions {
    FetchOptions(None, Some(q))
  }

  /** As written, a request with `html: true` whose response has no `content-type`
      passes the check, though nothing says the body is html. */
  lemma HtmlCheckMissesAbsentContentType(data: Option<string>)
    ensures HtmlCheck(data, OptionsWithQuery([("html", QBool(true))]), None).error == None
    ensures HtmlCheckIntended(data, OptionsWithQuery([("html", QBool(true))]), None).error.Some?
  {
  }

  /** As written, a request without `html` whose response is `text/html` is rejected,
      though html is what `getHtml` reads. */
  lemma HtmlCheckRejectsHtml(data: Option<string>)
    ensures HtmlCheck(data, OptionsWithQuery([]), Some("text/html")).error.Some?
  {
    ContainsIffOccurs("text/html", "html");
    assert OccursAt("text/html", "html", 5);
  }

  /** The intended check is the stricter one, and the two differ exactly on responses
      whose content type does not mention html: those the check as written lets through
      whatever was requested. */
  lemma HtmlChecksCompared(data: Option<string>, opts: FetchOptions, contentType: Option<string>)
    ensures HtmlCheck(data, opts, contentType).error.Some? ==>
              HtmlCheckIntended(data, opts, contentType).error.Some?
    ensures (HtmlCheck(data, opts, contentType).error.None? &&
             HtmlCheckIntended(data, opts, contentType).error.Some?)
              <==> !ContentMentions(contentType, "html")
  {
  }
}

=== FILE: schema.dfy ===
/** The `CataasJsonResponse` schema: the shape a cat's JSON metadata must have,
    and the record `safeParse` makes of a payload that has it. */
module Schema {
  import opened Optional
  import opened Json

  /** `CataasJsonResponse`, the parsed record. Unknown keys of the payload are dropped. */
  datatype CataasJsonResponse = CataasJsonResponse(
    id: string,
    mimetype: string,
    size: Option<int>,
    tags: seq<string>,
    createdAt: string,
    editedAt: Option<string>,
    updatedAt: Option<string>)

  /** `z.string().datetime()`: which strings are datetimes. Its grammar is not part
      of this model, so every operation takes it as a parameter. */
  type DatetimeCheck = string -> bool

  /** The schema as a list of field rules: `_id` and `mimetype` are strings, `size` is a
      number or null and must be present, `tags` is an array of strings, `createdAt` is a
      datetime string, `editedAt` and `updatedAt` are absent or datetime strings. */
  predicate Conforms(v: JsonValue, isDatetime: DatetimeCheck)
    ensures Conforms(v, isDatetime) ==>
              v.JObject? && {"_id", "mimetype", "size", "tags", "createdAt"} <= v.fields.Keys
  {
    && v.JObject?
    && "_id" in v.fields && v.fields["_id"].JString?
    && "mimetype" in v.fields && v.fields["mimetype"].JString?
    && "size" in v.fields && (v.fields["size"].JNumber? || v.fields["size"].JNull?)
    && "tags" in v.fields && v.fields["tags"].JArray?
    && (forall i :: 0 <= i < |v.fields["tags"].items| ==> v.fields["tags"].items[i].JString?)
    && "createdAt" in v.fields && v.fields["createdAt"].JString? && isDatetime(v.fields["createdAt"].s)
    && ("editedAt" in v.fields ==> v.fields["editedAt"].JString? && isDatetime(v.fields["editedAt"].s))
    && ("updatedAt" in v.fields ==> v.fields["updatedAt"].JString? && isDatetime(v.fields["updatedAt"].s))
  }

  function StringField(f: map<string, JsonValue>, key: string): Option<string> {
    if key in f && f[key].JString? then Some(f[key].s) else None
  }

  /** `z.number().nullable()`: present, and a number or null. */
  function NullableNumberField(f: map<string, JsonValue>, key: string): Option<Option<int>> {
    if key !in f then None
    else if f[key].JNumber? then Some(Some(f[key].n))
    else if f[key].JNull? then Some(None)
    else None
  }

  function StringArrayField(f: map<string, JsonValue>, key: string): Option<seq<string>> {
    if key in f then ParseStringArray(f[key]) else None
  }

  function DatetimeField(f: map<string, JsonValue>, key: string, isDatetime: DatetimeCheck): Option<string> {
    if key in f && f[key].JString? && isDatetime(f[key].s) then Some(f[key].s) else None
  }

  /** `z.string().datetime().optional()`: absent, or a datetime string. */
  function OptionalDatetimeField(f: map<string, JsonValue>, key: string, isDatetime: DatetimeCheck): Option<Option<string>> {
    if key !in f then Some(None)
    else if f[key].JString? && isDatetime(f[key].s) then Some(Some(f[key].s))
    else None
  }

  /** `CataasJsonResponse.safeParse(data).data`: the record, or `None` when the
      payload does not have the schema's shape. */
  function ParseCataasJson(data: JsonValue, isDatetime: DatetimeCheck): (r: Option<CataasJsonResponse>)
    ensures r.Some? <==> Conforms(data, isDatetime)
  {
    if !data.JObject? then None
    else
      var f := data.fields;
      var id :- StringField(f, "_id");
      var mimetype :- StringField(f, "mimetype");
      var size :- NullableNumberField(f, "size");
      var tags :- StringArrayField(f, "tags");
      var createdAt :- DatetimeField(f, "createdAt", isDatetime);
      var editedAt :- OptionalDatetimeField(f, "editedAt", isDatetime);
      var updatedAt :- OptionalDatetimeField(f, "updatedAt", isDatetime);
      Some(CataasJsonResponse(id, mimetype, size, tags, createdAt, editedAt, updatedAt))
  }

  /** A record whose timestamps are all datetimes. */
  predicate WellFormed(r: CataasJsonResponse, isDatetime: DatetimeCheck) {
    && isDatetime(r.createdAt)
    && (r.editedAt.Some? ==> isDatetime(r.editedAt.value))
    && (r.updatedAt.Some? ==> isDatetime(r.updatedAt.value))
  }

  function OptionalEntry(key: string, v: Option<string>): map<string, JsonValue> {
    match v
    case None => map[]
    case Some(s) => map[key := JString(s)]
  }

  /** The JSON payload of a record, as the cat API sends it. */
  function Encode(r: CataasJsonResponse): JsonValue {
    JObject(
      map[
        "_id" := JString(r.id),
        "mimetype" := JString(r.mimetype),
        "size" := (match r.size case None => JNull case Some(n) => JNumber(n)),
        "tags" := StringArray(r.tags),
        "createdAt" := JString(r.createdAt)]
      + OptionalEntry("editedAt", r.editedAt)
      + OptionalEntry("updatedAt", r.updatedAt))
  }

  /** Where each field of a record lands in its payload. */
  lemma EncodeFields(r: CataasJsonResponse)
    ensures var f := Encode(r).fields;
      && "_id" in f && f["_id"] == JString(r.id)
      && "mimetype" in f && f["mimetype"] == JString(r.mimetype)
      && "size" in f && f["size"] == (match r.size case None => JNull case Some(n) => JNumber(n))
      && "tags" in f && f["tags"] == StringArray(r.tags)
      && "createdAt" in f && f["createdAt"] == JString(r.createdAt)
      && ("editedAt" in f <==> r.editedAt.Some?)
      && (r.editedAt.Some? ==> f["editedAt"] == JString(r.editedAt.value))
      && ("updatedAt" in f <==> r.updatedAt.Some?)
      && (r.updatedAt.Some? ==> f["updatedAt"] == JString(r.updatedAt.value))
  {
  }

  /** Parsing the payload of a well-formed record gives the record back. */
  lemma EncodeRoundTrip(r: CataasJsonResponse, isDatetime: DatetimeCheck)
    requires WellFormed(r, isDatetime)
    ensures ParseCataasJson(Encode(r), isDatetime) == Some(r)
  {
    var f := Encode(r).fields;
    EncodeFields(r);
    StringArrayRoundTrip(r.tags);
    assert StringField(f, "_id") == Some(r.id);
    assert StringField(f, "mimetype") == Some(r.mimetype);
    assert NullableNumberField(f, "size") == Some(r.size);
    assert StringArrayField(f, "tags") == Some(r.tags);
    assert DatetimeField(f, "createdAt", isDatetime) == Some(r.createdAt);
    assert OptionalDatetimeField(f, "editedAt", isDatetime) == Some(r.editedAt);
    assert OptionalDatetimeField(f, "updatedAt", isDatetime) == Some(r.updatedAt);
  }

  /** Each field of a parsed record is read from the payload key of the same name. */
  lemma ParsedFields(v: JsonValue, isDatetime: DatetimeCheck)
    requires ParseCataasJson(v, isDatetime).Some?
    ensures var r, f := ParseCataasJson(v, isDatetime).value, v.fields;
      && f["_id"] == JString(r.id) && f["mimetype"] == JString(r.mimetype)
      && f["size"] == (match r.size case None => JNull case Some(n) => JNumber(n))
      && ParseStringArray(f["tags"]) == Some(r.tags)
      && f["createdAt"] == JString(r.createdAt) && isDatetime(r.createdAt)
      && ("editedAt" in f <==> r.editedAt.Some?)
      && (r.editedAt.Some? ==> f["editedAt"] == JString(r.editedAt.value) && isDatetime(r.editedAt.value))
      && ("updatedAt" in f <==> r.updatedAt.Some?)
      && (r.updatedAt.Some? ==> f["updatedAt"] == JString(r.updatedAt.value) && isDatetime(r.updatedAt.value))
  {
  }

  /** A parsed record is well formed, and every field of its payload was in the input
      with exactly that value; any other key of the input is ignored. */
  lemma ParseSound(v: JsonValue, isDatetime: DatetimeCheck)
    requires ParseCataasJson(v, isDatetime).Some?
    ensures WellFormed(ParseCataasJson(v, isDatetime).value, isDatetime)
    ensures forall k :: k in Encode(ParseCataasJson(v, isDatetime).value).fields ==>
              k in v.fields && v.fields[k] == Encode(ParseCataasJson(v, isDatetime).value).fields[k]
  {
    var r := ParseCataasJson(v, isDatetime).value;
    ParsedFields(v, isDatetime);
    ParseStringArrayExact(v.fields["tags"], r.tags);
    EncodeFields(r);
  }
}

=== FILE: seqs.dfy ===
/** Order-preserving selection over sequences: JavaScript's `Array.prototype.filter`
    and `Array.prototype.map`, with the facts the rest of the model relies on. */
module Seqs {

  /** `xs.filter(keep)`: the elements satisfying `keep`, in their original order. */
  function Filter<T>(xs: seq<T>, keep: T -> bool): (r: seq<T>)
    ensures |r| <= |xs|
    ensures forall i :: 0 <= i < |r| ==> keep(r[i])
    ensures forall i :: 0 <= i < |r| ==> r[i] in xs
    ensures forall i :: 0 <= i < |xs| && keep(xs[i]) ==> xs[i] in r
    decreases |xs|
  {
    if |xs| == 0 then []
    else if keep(xs[0]) then [xs[0]] + Filter(xs[1..], keep)
    else Filter(xs[1..], keep)
  }

  /** `xs.map(f)`. */
  function Map<T, U>(xs: seq<T>, f: T -> U): (r: seq<U>)
    ensures |r| == |xs|
    ensures forall i :: 0 <= i < |xs| ==> r[i] == f(xs[i])
  {
    seq(|xs|, i requires 0 <= i < |xs| => f(xs[i]))
  }

  /** `sub` is obtained from `xs` by deleting elements, keeping the order of the rest. */
  ghost predicate IsSubsequence<T>(sub: seq<T>, xs: seq<T>)
    decreases |xs|
  {
    if |sub| == 0 then true
    else if |xs| == 0 then false
    else (sub[0] == xs[0] && IsSubsequence(sub[1..], xs[1..])) || IsSubsequence(sub, xs[1..])
  }

  /** Filtering only deletes: the survivors keep their relative order. */
  lemma {:induction false} FilterIsSubsequence<T>(xs: seq<T>, keep: T -> bool)
    ensures IsSubsequence(Filter(xs, keep), xs)
    decreases |xs|
  {
    if |xs| > 0 {
      FilterIsSubsequence(xs[1..], keep);
      var rest := Filter(xs[1..], keep);
      if keep(xs[0]) {
        assert Filter(xs, keep) == [xs[0]] + rest;
        assert ([xs[0]] + rest)[1..] == rest;
      }
    }
  }

  /** Filtering distributes over concatenation, which pins down the order of the result. */
  lemma {:induction false} FilterAppend<T>(a: seq<T>, b: seq<T>, keep: T -> bool)
    ensures Filter(a + b, keep) == Filter(a, keep) + Filter(b, keep)
    decreases |a|
  {
    if |a| == 0 {
      assert a + b == b;
    } else {
      assert (a + b)[0] == a[0];
      assert (a + b)[1..] == a[1..] + b;
      FilterAppend(a[1..], b, keep);
    }
  }

  /** Each value occurs in the result exactly as often as in the input when it is kept,
      and not at all otherwise. */
  lemma {:induction false} FilterCount<T>(xs: seq<T>, keep: T -> bool, x: T)
    ensures multiset(Filter(xs, keep))[x] == if keep(x) then multiset(xs)[x] else 0
    decreases |xs|
  {
    if |xs| > 0 {
      FilterCount(xs[1..], keep, x);
      assert xs == [xs[0]] + xs[1..];
    }
  }

  /** A sequence whose every element is kept is its own filter. */
  lemma {:induction false} FilterKeepsAll<T>(xs: seq<T>, keep: T -> bool)
    requires forall i :: 0 <= i < |xs| ==> keep(xs[i])
    ensures Filter(xs, keep) == xs
    decreases |xs|
  {
    if |xs| > 0 {
      FilterKeepsAll(xs[1..], keep);
      assert xs == [xs[0]] + xs[1..];
    }
  }

  /** Filtering twice by the same test is filtering once. */
  lemma FilterIdempotent<T>(xs: seq<T>, keep: T -> bool)
    ensures Filter(Filter(xs, keep), keep) == Filter(xs, keep)
  {
    FilterKeepsAll(Filter(xs, keep), keep);
  }

  /** Two filters commute. */
  lemma {:induction false} FilterCommutes<T>(xs: seq<T>, p: T -> bool, q: T -> bool)
    ensures Filter(Filter(xs, p), q) == Filter(Filter(xs, q), p)
    decreases |xs|
  {
    if |xs| > 0 {
      FilterCommutes(xs[1..], p, q);
      var head := [xs[0]];
      assert xs == head + xs[1..];
      FilterAppend(head, xs[1..], p);
      FilterAppend(head, xs[1..], q);
      FilterAppend(Filter(head, p), Filter(xs[1..], p), q);
      FilterAppend(Filter(head, q), Filter(xs[1..], q), p);
    }
  }

  /** Mapping distributes over concatenation. */
  lemma MapAppend<T, U>(a: seq<T>, b: seq<T>, f: T -> U)
    ensures Map(a + b, f) == Map(a, f) + Map(b, f)
  {
  }

  /** Mapping preserves the subsequence relation. */
  lemma {:induction false} MapSubsequence<T, U>(sub: seq<T>, xs: seq<T>, f: T -> U)
    requires IsSubsequence(sub, xs)
    ensures IsSubsequence(Map(sub, f), Map(xs, f))
    decreases |xs|
  {
    if |sub| > 0 {
      assert Map(xs, f)[1..] == Map(xs[1..], f);
      if sub[0] == xs[0] && IsSubsequence(sub[1..], xs[1..]) {
        MapSubsequence(sub[1..], xs[1..], f);
        assert Map(sub, f)[1..] == Map(sub[1..], f);
      } else {
        MapSubsequence(sub, xs[1..], f);
      }
    }
  }
}

=== FILE: strings.dfy ===
/** The few string operations of JavaScript the model needs: `length`, `includes`,
    `join`, and the inverse of `join`, `split` on a single character. */
module Strings {

  /** A JavaScript string is a sequence of UTF-16 code units, while a Dafny string is
      a sequence of code points; `s.length` counts code units, so a character above
      U+FFFF (a surrogate pair) counts twice. */
  function Utf16Length(s: string): (n: nat)
    ensures |s| <= n <= 2 * |s|
    ensures (forall i :: 0 <= i < |s| ==> (s[i] as int) < 0x1_0000) ==> n == |s|
    ensures |s| == 1 ==> n == (if (s[0] as int) < 0x1_0000 then 1 else 2)
  {
    if |s| == 0 then 0
    else (if (s[0] as int) < 0x1_0000 then 1 else 2) + Utf16Length(s[1..])
  }

  /** The code-unit length adds up over concatenation; with the one-character case
      above, this fixes the length of every string. */
  lemma {:induction false} Utf16LengthAppend(s: string, t: string)
    ensures Utf16Length(s + t) == Utf16Length(s) + Utf16Length(t)
    decreases |s|
  {
    if |s| == 0 {
      assert s + t == t;
    } else {
      assert (s + t)[0] == s[0];
      assert (s + t)[1..] == s[1..] + t;
      Utf16LengthAppend(s[1..], t);
    }
  }

  predicate IsPrefix(p: string, s: string) {
    |p| <= |s| && s[..|p|] == p
  }

  /** `s.includes(t)`: `t` fits in `s`, and a prefix is always contained. */
  predicate Contains(s: string, t: string)
    ensures Contains(s, t) ==> |t| <= |s|
    ensures IsPrefix(t, s) ==> Contains(s, t)
    decreases |s|
  {
    IsPrefix(t, s) || (|s| > 0 && Contains(s[1..], t))
  }

  /** `t` occurs in `s` starting at index `i`. */
  predicate OccursAt(s: string, t: string, i: int) {
    0 <= i && i + |t| <= |s| && s[i..i + |t|] == t
  }

  /** `includes` holds exactly when `t` occurs at some position of `s`. */
  lemma {:induction false} ContainsIffOccurs(s: string, t: string)
    ensures Contains(s, t) <==> exists i :: OccursAt(s, t, i)
    decreases |s|
  {
    if IsPrefix(t, s) {
      assert OccursAt(s, t, 0);
    }
    if |s| > 0 {
      ContainsIffOccurs(s[1..], t);
      if Contains(s[1..], t) {
        var j :| OccursAt(s[1..], t, j);
        assert s[1..][j..j + |t|] == s[j + 1..j + 1 + |t|];
        assert OccursAt(s, t, j + 1);
      }
      if exists i :: OccursAt(s, t, i) {
        var i :| OccursAt(s, t, i);
        if i > 0 {
          assert s[1..][i - 1..i - 1 + |t|] == s[i..i + |t|];
          assert OccursAt(s[1..], t, i - 1);
        }
      }
    } else {
      if exists i :: OccursAt(s, t, i) {
        var i :| OccursAt(s, t, i);
        assert i == 0 && |t| == 0;
        assert IsPrefix(t, s);
      }
    }
  }

  /** Sum of the lengths of the parts. */
  function TotalLength(xs: seq<string>): nat
  {
    if |xs| == 0 then 0 else |xs[0]| + TotalLength(xs[1..])
  }

  /** Length of `n - 1` copies of `sep`, the separators between `n` parts. */
  function SeparatorsLength(n: nat, sep: string): nat
  {
    if n <= 1 then 0 else |sep| + SeparatorsLength(n - 1, sep)
  }

  /** `xs.join(sep)`: the parts in order with one separator between neighbours, so
      the result is as long as the parts plus one separator fewer than there are
      parts. */
  function Join(xs: seq<string>, sep: string): (r: string)
    ensures |xs| == 0 ==> r == ""
    ensures |r| == TotalLength(xs) + SeparatorsLength(|xs|, sep)
    decreases |xs|
  {
    if |xs| == 0 then ""
    else if |xs| == 1 then xs[0]
    else xs[0] + sep + Join(xs[1..], sep)
  }

  /** Splits `s` at the first occurrence of `c`: the part before it and the rest,
      which is empty or starts with `c`. */
  function TakeUntil(s: string, c: char): (r: (string, string))
    ensures r.0 + r.1 == s
    ensures c !in r.0
    ensures r.1 == [] || r.1[0] == c
    decreases |s|
  {
    if |s| == 0 then ("", "")
    else if s[0] == c then ("", s)
    else
      var (h, t) := TakeUntil(s[1..], c);
      ([s[0]] + h, t)
  }

  /** The split at the first `c` is the only decomposition with its two properties. */
  lemma {:induction false} TakeUntilUnique(h: string, t: string, c: char)
    requires c !in h
    requires t == [] || t[0] == c
    ensures TakeUntil(h + t, c) == (h, t)
    decreases |h|
  {
    if |h| == 0 {
      assert h + t == t;
    } else {
      assert (h + t)[0] == h[0];
      assert (h + t)[1..] == h[1..] + t;
      TakeUntilUnique(h[1..], t, c);
      assert [h[0]] + h[1..] == h;
    }
  }

  /** `s.split(c)`. */
  function Split(s: string, c: char): (r: seq<string>)
    ensures |r| > 0
    ensures forall i :: 0 <= i < |r| ==> c !in r[i]
    decreases |s|
  {
    var (h, t) := TakeUntil(s, c);
    if t == [] then [h] else [h] + Split(t[1..], c)
  }

  /** Joining with `c` and splitting at `c` are inverse: no part is lost or merged
      as long as no part contains the separator. */
  lemma {:induction false} SplitJoin(xs: seq<string>, c: char)
    requires |xs| > 0
    requires forall i :: 0 <= i < |xs| ==> c !in xs[i]
    ensures Split(Join(xs, [c]), c) == xs
    decreases |xs|
  {
    if |xs| == 1 {
      TakeUntilUnique(xs[0], "", c);
      assert xs[0] + "" == xs[0];
    } else {
      var rest := Join(xs[1..], [c]);
      var s := Join(xs, [c]);
      assert s == xs[0] + ([c] + rest);
      TakeUntilUnique(xs[0], [c] + rest, c);
      assert TakeUntil(s, c) == (xs[0], [c] + rest);
      assert ([c] + rest)[1..] == rest;
      assert Split(s, c) == [xs[0]] + Split(rest, c);
      assert forall i :: 0 <= i < |xs[1..]| ==> c !in xs[1..][i];
      SplitJoin(xs[1..], c);
      assert xs == [xs[0]] + xs[1..];
    }
  }

  /** ... and the other way round: splitting and joining back gives the original string. */
  lemma {:induction false} JoinSplit(s: string, c: char)
    ensures Join(Split(s, c), [c]) == s
    decreases |s|
  {
    var (h, t) := TakeUntil(s, c);
    if t == [] {
      assert Split(s, c) == [h];
      assert h + t == h;
    } else {
      JoinSplit(t[1..], c);
      JoinSplitStep(s, c, h, t);
    }
  }

  /** The step of `JoinSplit`: a split at a first `c` joins back when the rest does. */
  lemma JoinSplitStep(s: string, c: char, h: string, t: string)
    requires TakeUntil(s, c) == (h, t) && t != []
    requires Join(Split(t[1..], c), [c]) == t[1..]
    ensures Join(Split(s, c), [c]) == s
  {
    var parts := Split(t[1..], c);
    assert Split(s, c) == [h] + parts;
    JoinCons(h, parts, [c]);
    assert t == [c] + t[1..];
    assert h + ([c] + t[1..]) == h + [c] + t[1..];
  }

  /** Joining a part in front of a non-empty list adds it and one separator. */
  lemma JoinCons(h: string, parts: seq<string>, sep: string)
    requires |parts| > 0
    ensures Join([h] + parts, sep) == h + sep + Join(parts, sep)
  {
    var all := [h] + parts;
    assert all[0] == h && all[1..] == parts;
  }

  /** Joining two non-empty lists puts one separator between the two joins. */
  lemma {:induction false} JoinAppend(a: seq<string>, b: seq<string>, sep: string)
    requires |a| > 0 && |b| > 0
    ensures Join(a + b, sep) == Join(a, sep) + sep + Join(b, sep)
    decreases |a|
  {
    if |a| == 1 {
      assert (a + b)[1..] == b;
    } else {
      assert (a + b)[1..] == a[1..] + b;
      JoinAppend(a[1..], b, sep);
    }
  }

  /** A character absent from every part and from the separator is absent from the join. */
  lemma {:induction false} NotInJoin(xs: seq<string>, sep: string, c: char)
    requires c !in sep
    requires forall i :: 0 <= i < |xs| ==> c !in xs[i]
    ensures c !in Join(xs, sep)
    decreases |xs|
  {
    if |xs| > 1 {
      NotInJoin(xs[1..], sep, c);
    }
  }
}

=== FILE: tags.dfy ===
/** `useCataasTags`: the tag vocabulary of the cat API, cleaned of one-letter
    and empty tags. */
module Tags {
  import opened Json
  import Seqs
  import Url
  import Strings

  /** `[DOMAIN, PATH.api, PATH.tags].join('/')`. */
  const TagsUrl: string := Url.Domain + "/" + "api" + "/" + "tags"

  /** The filter's test, `tag !== '' && tag.length > 1`: at least two UTF-16 code
      units, so a lone character above U+FFFF is long enough. */
  predicate KeepTag(tag: string)
    ensures KeepTag(tag) <==> Strings.Utf16Length(tag) >= 2
  {
    tag != "" && Strings.Utf16Length(tag) > 1
  }

  /** A single emoji outside the Basic Multilingual Plane is kept, a single letter is
      not. */
  lemma AstralTagKept()
    ensures KeepTag("\U{1F431}")
    ensures !KeepTag("a")
  {
    assert Strings.Utf16Length("\U{1F431}"[1..]) == 0;
    assert Strings.Utf16Length("a"[1..]) == 0;
  }

  /** The computed `tags`: the payload read as an array of strings (nothing if it is
      not one), keeping the tags of two UTF-16 code units or more. */
  function TagsOf(data: JsonValue): (r: seq<string>)
    ensures forall i :: 0 <= i < |r| ==> Strings.Utf16Length(r[i]) >= 2
    ensures ParseStringArray(data).None? ==> r == []
    ensures ParseStringArray(data).Some? ==>
              forall i :: 0 <= i < |r| ==> r[i] in ParseStringArray(data).value
    ensures ParseStringArray(data).Some? ==>
              var ss := ParseStringArray(data).value;
              forall i :: 0 <= i < |ss| && Strings.Utf16Length(ss[i]) >= 2 ==> ss[i] in r
  {
    Seqs.Filter(ParseStringArray(data).GetOr([]), KeepTag)
  }

  /** The kept tags appear in the order the server sent them. */
  lemma TagsInOrder(ss: seq<string>)
    ensures Seqs.IsSubsequence(TagsOf(StringArray(ss)), ss)
  {
    StringArrayRoundTrip(ss);
    Seqs.FilterIsSubsequence(ss, KeepTag);
  }

  /** Each tag is kept as often as the server sent it, if it is long enough. */
  lemma TagsCount(ss: seq<string>, tag: string)
    ensures multiset(TagsOf(StringArray(ss)))[tag] == if Strings.Utf16Length(tag) >= 2 then multiset(ss)[tag] else 0
  {
    StringArrayRoundTrip(ss);
    Seqs.FilterCount(ss, KeepTag, tag);
  }

  /** Cleaning the clean list changes nothing. */
  lemma TagsStable(data: JsonValue)
    ensures TagsOf(StringArray(TagsOf(data))) == TagsOf(data)
  {
    StringArrayRoundTrip(TagsOf(data));
    Seqs.FilterIdempotent(ParseStringArray(data).GetOr([]), KeepTag);
  }
}

=== FILE: url.dfy ===
/** `constructUrl`: the request URL of a cat, built from path and query parameters,
    together with a reader for such URLs that recovers what was asked for. */
module Url {
  import opened Optional
  import opened Strings
  import opened Query

  const Domain: string := "https://cataas.com"
  const CatPath: string := "cat"
  const GifPath: string := "gif"
  const SaysPath: string := "says"

  /** Every cat URL starts here. */
  const Base: string := Domain + "/" + CatPath

  /** `CatPathParams`. The TypeScript type forbids `id` together with `tag` or `gif`;
      the builder does not rely on it, so neither does the model. */
  datatype PathParams = PathParams(
    text: Option<string>,
    id: Option<string>,
    tag: Option<seq<string>>,
    gif: Option<bool>)

  const NoPathParams: PathParams := PathParams(None, None, None, None)

  /** `CataasFetchOptions`. */
  datatype FetchOptions = FetchOptions(pathParams: Option<PathParams>, queryParams: Option<QueryParams>)

  /** `URLSearchParams.prototype.toString`, the application/x-www-form-urlencoded
      serializer of section 5.2 of the WHATWG URL Standard, kept abstract. */
  type Encoder = seq<(string, string)> -> string

  predicate HasId(p: PathParams) {
    p.id.Some? && p.id.value != ""
  }

  predicate HasTags(p: PathParams) {
    p.tag.Some? && |p.tag.value| > 0
  }

  predicate HasGif(p: PathParams) {
    p.gif == Some(true)
  }

  predicate HasText(p: PathParams) {
    p.text.Some? && p.text.value != ""
  }

  function PathParamsOf(options: FetchOptions): PathParams {
    options.pathParams.GetOr(NoPathParams)
  }

  function QueryParamsOf(options: FetchOptions): QueryParams {
    options.queryParams.GetOr([])
  }

  /** `constructUrl(options)`: the base, then each optional part in turn. */
  function ConstructUrl(options: FetchOptions, encode: Encoder): (url: string)
    ensures url == Base + Render(Segments(PathParamsOf(options)))
                   + QuerySuffix(QueryOf(QueryParamsOf(options), encode))
    ensures IsPrefix(Base, url)
  {
    PathUrlRenders(PathParamsOf(options));
    AppendQuery(PathUrl(PathParamsOf(options)), Survivors(QueryParamsOf(options)), encode)
  }

  /** The URL before its query: the base with the resource, gif and caption parts appended. */
  function PathUrl(p: PathParams): string
  {
    AppendText(AppendGif(AppendResource(Base, p), p), p)
  }

  /** The resource segment: the id when truthy, else the comma-joined tags when there are any. */
  function AppendResource(url: string, p: PathParams): string
  {
    if HasId(p) then url + "/" + p.id.value
    else if HasTags(p) then url + "/" + Join(p.tag.value, ",")
    else url
  }

  function AppendGif(url: string, p: PathParams): string
  {
    if HasGif(p) then url + "/" + GifPath else url
  }

  function AppendText(url: string, p: PathParams): string
  {
    if HasText(p) then url + "/" + SaysPath + "/" + p.text.value else url
  }

  /** `?` and the serialized pairs, when there is at least one pair (`queryParams.size > 0`). */
  function AppendQuery(url: string, pairs: seq<(string, string)>, encode: Encoder): (r: string)
    ensures r == url <==> |pairs| == 0
    ensures |pairs| > 0 ==> IsPrefix(url, r) && r[|url|..] == "?" + encode(pairs)
  {
    if |pairs| > 0 then url + "?" + encode(pairs) else url
  }

  // ----- What a URL asks for -----

  /** The resource the request names: the id if it is set, else the comma-joined tags. */
  function ResourceOf(p: PathParams): Option<string> {
    if HasId(p) then Some(p.id.value)
    else if HasTags(p) then Some(Join(p.tag.value, ","))
    else None
  }

  function TextOf(p: PathParams): Option<string> {
    if HasText(p) then Some(p.text.value) else None
  }

  function ResourceSegments(p: PathParams): seq<string> {
    match ResourceOf(p)
    case None => []
    case Some(r) => [r]
  }

  function GifSegments(p: PathParams): seq<string> {
    if HasGif(p) then [GifPath] else []
  }

  function TextSegments(p: PathParams): seq<string> {
    if HasText(p) then [SaysPath, p.text.value] else []
  }

  /** The path segments after `cat`, in the order the cat API expects them:
      resource, then `gif`, then `says/<text>`. */
  function Segments(p: PathParams): seq<string> {
    ResourceSegments(p) + GifSegments(p) + TextSegments(p)
  }

  /** A path written out from its segments. */
  function Render(segs: seq<string>): string {
    if |segs| == 0 then "" else "/" + Join(segs, "/")
  }

  /** The query string, present exactly when some pair survives. */
  function QueryOf(q: QueryParams, encode: Encoder): Option<string> {
    var pairs := Survivors(q);
    if |pairs| > 0 then Some(encode(pairs)) else None
  }

  function QuerySuffix(query: Option<string>): string {
    match query
    case None => ""
    case Some(s) => "?" + s
  }

  lemma RenderAppend(a: seq<string>, b: seq<string>)
    ensures Render(a + b) == Render(a) + Render(b)
  {
    if |a| == 0 {
      assert a + b == b;
    } else if |b| == 0 {
      assert a + b == a;
    } else {
      RenderAppendBoth(a, b);
    }
  }

  /** `RenderAppend` when neither list is empty. */
  lemma RenderAppendBoth(a: seq<string>, b: seq<string>)
    requires |a| > 0 && |b| > 0
    ensures Render(a + b) == Render(a) + Render(b)
  {
    JoinAppend(a, b, "/");
    var ja, jb := Join(a, "/"), Join(b, "/");
    assert Render(a + b) == "/" + (ja + "/" + jb);
    assert "/" + (ja + "/" + jb) == ("/" + ja) + ("/" + jb);
  }

  lemma RenderOne(x: string)
    ensures Render([x]) == "/" + x
  {
  }

  lemma RenderFour(w: string, x: string, y: string, z: string)
    ensures Render([w, x, y, z]) == "/" + w + "/" + x + "/" + y + "/" + z
  {
    RenderAppend([w, x], [y, z]);
    RenderTwo(w, x);
    RenderTwo(y, z);
    assert [w, x] + [y, z] == [w, x, y, z];
  }

  lemma RenderTwo(x: string, y: string)
    ensures Render([x, y]) == "/" + x + "/" + y
  {
    assert [x, y][1..] == [y];
    assert Join([y], "/") == y;
    assert Join([x, y], "/") == x + "/" + y;
  }

  lemma AppendResourceRenders(url: string, p: PathParams)
    ensures AppendResource(url, p) == url + Render(ResourceSegments(p))
  {
    if ResourceOf(p).Some? {
      RenderOne(ResourceOf(p).value);
    }
  }

  lemma AppendGifRenders(url: string, p: PathParams)
    ensures AppendGif(url, p) == url + Render(GifSegments(p))
  {
    RenderOne(GifPath);
  }

  lemma AppendTextRenders(url: string, p: PathParams)
    ensures AppendText(url, p) == url + Render(TextSegments(p))
  {
    if HasText(p) {
      RenderTwo(SaysPath, p.text.value);
    }
  }

  /** Three appends in a row append the three pieces together. */
  lemma AppendThree(url: string, u1: string, u2: string, u3: string, r: string, g: string, t: string)
    requires u1 == url + r && u2 == u1 + g && u3 == u2 + t
    ensures u3 == url + (r + g + t)
  {
  }

  /** Appending the three parts to any URL appends the rendered segment list. */
  lemma AppendPartsRenders(url: string, p: PathParams)
    ensures AppendText(AppendGif(AppendResource(url, p), p), p) == url + Render(Segments(p))
  {
    var r, g, t := ResourceSegments(p), GifSegments(p), TextSegments(p);
    RenderAppend(r + g, t);
    RenderAppend(r, g);
    var u1 := AppendResource(url, p);
    AppendResourceRenders(url, p);
    var u2 := AppendGif(u1, p);
    AppendGifRenders(u1, p);
    var u3 := AppendText(u2, p);
    AppendTextRenders(u2, p);
    AppendThree(url, u1, u2, u3, Render(r), Render(g), Render(t));
  }

  /** Before the query, the URL is the base followed by the rendered segments. */
  lemma PathUrlRenders(p: PathParams)
    ensures PathUrl(p) == Base + Render(Segments(p))
  {
    AppendPartsRenders(Base, p);
  }

  // ----- Reading a URL back -----

  /** The parts of a cat URL. */
  datatype UrlParts = UrlParts(resource: Option<string>, gif: bool, text: Option<string>, query: Option<string>)

  /** The segments of a path: empty, or `/`-separated. */
  function ParsePath(path: string): Option<seq<string>> {
    if path == "" then Some([])
    else if path[0] == '/' then Some(Split(path[1..], '/'))
    else None
  }

  /** The cat API's routes `[/<resource>][/gif][/says/<text>]`; a first segment that
      is `gif` or `says` is read as that keyword, not as a resource. */
  function DecodeRoute(segs: seq<string>): Option<(Option<string>, bool, Option<string>)> {
    var hasResource := |segs| > 0 && segs[0] != GifPath && segs[0] != SaysPath;
    var resource := if hasResource then Some(segs[0]) else None;
    var rest := if hasResource then segs[1..] else segs;
    if rest == [] then Some((resource, false, None))
    else if rest == [GifPath] then Some((resource, true, None))
    else if |rest| == 2 && rest[0] == SaysPath then Some((resource, false, Some(rest[1])))
    else if |rest| == 3 && rest[0] == GifPath && rest[1] == SaysPath then Some((resource, true, Some(rest[2])))
    else None
  }

  /** Reads a URL of the cat API: base, path up to the first `?`, then the query. */
  function ParseUrl(url: string): Option<UrlParts> {
    if !IsPrefix(Base, url) then None
    else
      var (path, rest) := TakeUntil(url[|Base|..], '?');
      var query := if rest == [] then None else Some(rest[1..]);
      match ParsePath(path)
      case None => None
      case Some(segs) =>
        match DecodeRoute(segs)
        case None => None
        case Some((resource, gif, text)) => Some(UrlParts(resource, gif, text, query))
  }

  /** A path segment that neither splits nor ends the path. */
  predicate SafeSegment(s: string) {
    '/' !in s && '?' !in s
  }

  /** The resource, if any, is not one of the route keywords `gif` and `says`. */
  predicate ResourceNotKeyword(p: PathParams) {
    ResourceOf(p).Some? ==> ResourceOf(p).value != GifPath && ResourceOf(p).value != SaysPath
  }

  /** Path parameters whose URL can be read back: the resource and the caption are
      safe segments, and the resource is not one of the route keywords. */
  predicate Unambiguous(p: PathParams) {
    && ResourceNotKeyword(p)
    && (ResourceOf(p).Some? ==> SafeSegment(ResourceOf(p).value))
    && (HasText(p) ==> SafeSegment(p.text.value))
  }

  /** The segment list decodes to what was asked for, unless the resource is a route
      keyword (see `IdGifReadsAsGifFlag`). */
  lemma DecodeSegments(p: PathParams)
    requires ResourceNotKeyword(p)
    ensures DecodeRoute(Segments(p)) == Some((ResourceOf(p), HasGif(p), TextOf(p)))
  {
    var r, g, t := ResourceSegments(p), GifSegments(p), TextSegments(p);
    var segs := Segments(p);
    assert segs == r + g + t;
    if ResourceOf(p).Some? {
      assert segs[0] == ResourceOf(p).value;
      assert segs[1..] == g + t;
    } else {
      assert segs == g + t;
    }
  }

  /** A path of safe segments holds no `?` and splits back into its segments. */
  lemma ParseRenderedPath(segs: seq<string>)
    requires forall i :: 0 <= i < |segs| ==> SafeSegment(segs[i])
    ensures '?' !in Render(segs)
    ensures ParsePath(Render(segs)) == Some(segs)
  {
    if |segs| > 0 {
      NotInJoin(segs, "/", '?');
      SplitJoin(segs, '/');
      assert Render(segs)[1..] == Join(segs, "/");
    }
  }

  /** The segments of unambiguous path parameters are safe. */
  lemma SegmentsSafe(p: PathParams)
    requires Unambiguous(p)
    ensures forall i :: 0 <= i < |Segments(p)| ==> SafeSegment(Segments(p)[i])
  {
  }

  /** After the base, the first `?` ends the path and what follows it is the query. */
  lemma SplitPathAndQuery(path: string, query: Option<string>)
    requires '?' !in path
    ensures TakeUntil(path + QuerySuffix(query), '?') == (path, QuerySuffix(query))
    ensures var rest := QuerySuffix(query); (if rest == [] then None else Some(rest[1..])) == query
  {
    TakeUntilUnique(path, QuerySuffix(query), '?');
  }

  /** Reading a URL made of the base, a path of known segments and a query. */
  lemma ParseUrlOf(path: string, segs: seq<string>, query: Option<string>)
    requires '?' !in path
    requires ParsePath(path) == Some(segs)
    requires DecodeRoute(segs).Some?
    ensures ParseUrl(Base + path + QuerySuffix(query))
         == Some(UrlParts(DecodeRoute(segs).value.0, DecodeRoute(segs).value.1, DecodeRoute(segs).value.2, query))
  {
    var tail := path + QuerySuffix(query);
    assert Base + path + QuerySuffix(query) == Base + tail;
    PrefixOfAppend(Base, tail);
    DropPrefix(Base, tail);
    SplitPathAndQuery(path, query);
  }

  /** Why `DecodeSegments` needs its precondition: the id `gif` gives the same segment
      list as the gif flag, and reads back as the flag. */
  lemma IdGifReadsAsGifFlag()
    ensures Segments(PathParams(None, Some(GifPath), None, None)) == Segments(PathParams(None, None, None, Some(true)))
    ensures DecodeRoute(Segments(PathParams(None, Some(GifPath), None, None))) == Some((None, true, None))
  {
    var byId := PathParams(None, Some(GifPath), None, None);
    var byFlag := PathParams(None, None, None, Some(true));
    assert ResourceSegments(byId) == [GifPath] && GifSegments(byId) == [] && TextSegments(byId) == [];
    assert ResourceSegments(byFlag) == [] && GifSegments(byFlag) == [GifPath] && TextSegments(byFlag) == [];
    assert Segments(byId) == [GifPath];
    assert Segments(byFlag) == [GifPath];
  }

  /** Round trip: reading a built URL recovers the resource, the gif flag, the caption
      and the encoded query, whenever the path parameters are unambiguous. */
  lemma ParseConstructedUrl(options: FetchOptions, encode: Encoder)
    requires Unambiguous(PathParamsOf(options))
    ensures ParseUrl(ConstructUrl(options, encode))
         == Some(UrlParts(ResourceOf(PathParamsOf(options)), HasGif(PathParamsOf(options)),
                          TextOf(PathParamsOf(options)), QueryOf(QueryParamsOf(options), encode)))
  {
    var p := PathParamsOf(options);
    SegmentsSafe(p);
    ParseRenderedPath(Segments(p));
    DecodeSegments(p);
    ParseUrlOf(Render(Segments(p)), Segments(p), QueryOf(QueryParamsOf(options), encode));
  }

  /** The tag list itself is recovered from the resource segment when no tag holds a comma. */
  lemma TagsRecoverable(p: PathParams)
    requires !HasId(p) && HasTags(p)
    requires forall i :: 0 <= i < |p.tag.value| ==> ',' !in p.tag.value[i]
    ensures Split(ResourceOf(p).value, ',') == p.tag.value
  {
    SplitJoin(p.tag.value, ',');
  }

  // ----- Properties of the builder -----

  /** A truthy `id` is the resource, and the tags are ignored whatever they are. */
  lemma IdWins(options: FetchOptions, encode: Encoder, tags: Option<seq<string>>)
    requires HasId(PathParamsOf(options))
    ensures IsPrefix(Base + "/" + PathParamsOf(options).id.value, ConstructUrl(options, encode))
    ensures ConstructUrl(options, encode)
         == ConstructUrl(options.(pathParams := Some(PathParamsOf(options).(tag := tags))), encode)
  {
    var p := PathParamsOf(options);
    var rest := Render(GifSegments(p) + TextSegments(p));
    var tail := QuerySuffix(QueryOf(QueryParamsOf(options), encode));
    IdFirstSegment(p);
    RegroupFirst(Base, p.id.value, rest, tail);
    PrefixOfAppend(Base + "/" + p.id.value, rest + tail);
    var other := options.(pathParams := Some(p.(tag := tags)));
    assert PathParamsOf(other) == p.(tag := tags);
    assert QueryParamsOf(other) == QueryParamsOf(options);
    assert Segments(PathParamsOf(other)) == Segments(p);
  }

  /** What follows a prefix is the rest. */
  lemma DropPrefix(a: string, b: string)
    ensures (a + b)[|a|..] == b
  {
  }

  /** A path whose first segment is `x` starts with `/x`. */
  lemma RenderFirst(x: string, rest: seq<string>)
    ensures Render([x] + rest) == "/" + x + Render(rest)
  {
    RenderAppend([x], rest);
    RenderOne(x);
  }

  /** A string starts with every prefix it is built from. */
  lemma PrefixOfAppend(a: string, b: string)
    ensures IsPrefix(a, a + b)
  {
    assert (a + b)[..|a|] == a;
  }

  /** A truthy id is the first segment. */
  lemma IdFirstSegment(p: PathParams)
    requires HasId(p)
    ensures Render(Segments(p)) == "/" + p.id.value + Render(GifSegments(p) + TextSegments(p))
  {
    assert ResourceSegments(p) == [p.id.value];
    assert Segments(p) == [p.id.value] + (GifSegments(p) + TextSegments(p));
    RenderFirst(p.id.value, GifSegments(p) + TextSegments(p));
  }

  /** Without an id, a non-empty tag list is the first segment. */
  lemma TagsFirstSegment(p: PathParams)
    requires !HasId(p) && HasTags(p)
    ensures Render(Segments(p)) == "/" + Join(p.tag.value, ",") + Render(GifSegments(p) + TextSegments(p))
  {
    var j := Join(p.tag.value, ",");
    assert ResourceSegments(p) == [j];
    assert Segments(p) == [j] + (GifSegments(p) + TextSegments(p));
    RenderFirst(j, GifSegments(p) + TextSegments(p));
  }

  /** Moves the parentheses after the first segment. */
  lemma RegroupFirst(b: string, j: string, rest: string, tail: string)
    ensures b + ("/" + j + rest) + tail == (b + "/" + j) + (rest + tail)
  {
  }

  /** Without an id, a non-empty tag list adds the one segment of its comma-joined tags. */
  lemma TagsSegment(options: FetchOptions, encode: Encoder)
    requires !HasId(PathParamsOf(options)) && HasTags(PathParamsOf(options))
    ensures IsPrefix(Base + "/" + Join(PathParamsOf(options).tag.value, ","), ConstructUrl(options, encode))
  {
    var p := PathParamsOf(options);
    var j := Join(p.tag.value, ",");
    var rest := Render(GifSegments(p) + TextSegments(p));
    var tail := QuerySuffix(QueryOf(QueryParamsOf(options), encode));
    TagsFirstSegment(p);
    RegroupFirst(Base, j, rest, tail);
    PrefixOfAppend(Base + "/" + j, rest + tail);
  }

  /** Without an id, an empty or absent tag list contributes nothing: the URL is the
      one built with neither id nor tags. */
  lemma NoResourceSegment(options: FetchOptions, encode: Encoder)
    requires !HasId(PathParamsOf(options)) && !HasTags(PathParamsOf(options))
    ensures ResourceOf(PathParamsOf(options)) == None
    ensures ConstructUrl(options, encode)
         == ConstructUrl(options.(pathParams := Some(PathParamsOf(options).(id := None, tag := None))), encode)
  {
    var p := PathParamsOf(options);
    var bare := options.(pathParams := Some(p.(id := None, tag := None)));
    assert PathParamsOf(bare) == p.(id := None, tag := None);
    assert QueryParamsOf(bare) == QueryParamsOf(options);
    assert Segments(PathParamsOf(bare)) == Segments(p);
  }

  /** `?` and the encoded query follow the path exactly when some entry is truthy;
      the path itself does not depend on the query parameters. */
  lemma QueryAppendedIff(options: FetchOptions, encode: Encoder)
    ensures ConstructUrl(options, encode)
         == ConstructUrl(options.(queryParams := None), encode)
            + (if exists i :: 0 <= i < |QueryParamsOf(options)| && Truthy(QueryParamsOf(options)[i].1)
               then "?" + encode(Survivors(QueryParamsOf(options)))
               else "")
  {
    SurvivorsEmptyIff(QueryParamsOf(options));
    assert Survivors([]) == [];
  }

  /** A falsy query entry, wherever it stands, leaves the URL unchanged. */
  lemma FalsyQueryEntryIgnored(p: Option<PathParams>, a: QueryParams, key: string, v: QVal, b: QueryParams, encode: Encoder)
    requires !Truthy(v)
    ensures ConstructUrl(FetchOptions(p, Some(a + [(key, v)] + b)), encode)
         == ConstructUrl(FetchOptions(p, Some(a + b)), encode)
  {
    FalsyEntryIgnored(a, key, v, b);
  }

  /** Moves the parentheses of a rendered four-segment path. */
  lemma RegroupPath(b: string, w: string, x: string, y: string, z: string, tail: string)
    ensures b + ("/" + w + "/" + x + "/" + y + "/" + z) + tail
         == b + "/" + w + "/" + x + "/" + y + "/" + z + tail
  {
  }

  /** Four segments, gathered from the three parts of a path. */
  lemma FourSegments(w: string, x: string, y: string, z: string)
    ensures [w] + [x] + [y, z] == [w, x, y, z]
  {
  }

  /** The segments of a tags, gif and caption request. */
  lemma TagsGifCaptionSegments(p: PathParams)
    requires !HasId(p) && HasTags(p) && HasGif(p) && HasText(p)
    ensures Segments(p) == [Join(p.tag.value, ","), GifPath, SaysPath, p.text.value]
  {
    FourSegments(Join(p.tag.value, ","), GifPath, SaysPath, p.text.value);
  }

  /** The path of a tags, gif and caption request: `/<tags>/gif/says/<text>`. */
  lemma TagsGifCaptionPath(tags: seq<string>, text: string)
    requires |tags| > 0 && text != ""
    ensures Render(Segments(PathParams(Some(text), None, Some(tags), Some(true))))
         == "/" + Join(tags, ",") + "/" + GifPath + "/" + SaysPath + "/" + text
  {
    TagsGifCaptionSegments(PathParams(Some(text), None, Some(tags), Some(true)));
    RenderFour(Join(tags, ","), GifPath, SaysPath, text);
  }

  /** Tags, gif and caption together: `/<tags>/gif/says/<text>`, then the query. */
  lemma TagsGifCaptionShape(tags: seq<string>, text: string, q: QueryParams, encode: Encoder)
    requires |tags| > 0 && text != ""
    ensures ConstructUrl(FetchOptions(Some(PathParams(Some(text), None, Some(tags), Some(true))), Some(q)), encode)
         == Base + "/" + Join(tags, ",") + "/" + GifPath + "/" + SaysPath + "/" + text
            + QuerySuffix(QueryOf(q, encode))
  {
    var p := PathParams(Some(text), None, Some(tags), Some(true));
    var o := FetchOptions(Some(p), Some(q));
    assert PathParamsOf(o) == p;
    TagsGifCaptionPath(tags, text);
    RegroupPath(Base, Join(tags, ","), GifPath, SaysPath, text, QuerySuffix(QueryOf(q, encode)));
  }
}
